=== FILE: README.md ===
# Archery trial: a Dafny model of the game session

The game (`game.js`) is a browser archery game played over six levels. Each level gives the
player an allotment of arrows, a target of a given radius (moving from the third level on), a
wind ceiling and a score threshold. The player holds and releases to shoot. Power grows with the
hold time and saturates after two seconds. An arrow that reaches the target sticks there and
scores by ring: 50, 30, 20, 10 or 5 from the centre outwards. An arrow that leaves the field
sticks without a score. Once every arrow of the level has been fired and has settled, the run's
cumulative score is compared with the level's threshold. The level is passed (the next level is
offered) or failed (the same level is offered again).

The model keeps the session's state machine and bookkeeping:

- `Catalog`: the table of six levels, with their well-formedness and how difficulty grows.
- `Numbers`: `clamp` and small facts about real arithmetic.
- `Scoring`: `scoreArrowHit` as a function of the arrow's distance from the target centre.
- `Shot`: the power fraction of a hold and the launch speed it gives.
- `Wind`: the wind re-roll from a random draw.
- `Settling`: `Arrow.update` as a pure step on an arrow record, given what the physics observed
  in that frame. Also the lemmas about many frames.
- `Tally`: the score and hit totals of a sequence of arrows.
- `Game`: `gameState` as the class `Session`, whose methods are the source's commands
  (`resetGame`, `startLevel`, the Start and Continue buttons, `startCharge`, `releaseShot`,
  `shootArrow`, `updateWind`, `Arrow.update`, `checkLevelEnd`, `advanceLevel`, `failLevel`, one
  `mainLoop` frame), plus the `Target` class.
- `Scenario`: the first level played perfectly through those commands.

The session's invariant `Session.Valid` ties the counters together:

- The fired and unfired arrows make up the level's allotment.
- Every live arrow's score is zero or a ring score, and only a settled arrow has one.
- `totalScore` is exactly the sum of the scores credited to the run's arrows.
- `hits` is exactly the number of them that scored.
- `hits` never exceeds `shotsFired`.

Ghost fields keep the totals of earlier level attempts, whose arrows the source discards.

Physics is not modelled. Each frame, the environment supplies one `Flight` per live arrow:

- `hitDist`: the distance from the target centre used by the collision test.
- `scoreDist`: the distance used for scoring, after the 10-unit penetration nudge. The source
  scores the arrow after moving it, so the two distances differ.
- `outOfBounds`: whether the arrow has left the field.

Clock readings (`performance.now()`) and random draws (`Math.random()`) are method parameters.

## Model

| member | source | states |
|---|---|---|
| Numbers.ClampReal | game.js:115 | the result lies in [lo, hi] when lo <= hi, equals v inside the range, and is lo below it and hi above it |
| Numbers.ClampInt | game.js:115 | the same clamp on integers, as used for the ring index |
| Numbers.ClampIntMonotone | game.js:115 | clamping preserves order |
| Numbers.ClampRealMonotone | game.js:115 | clamping preserves order on reals |
| Catalog.Level | game.js:48-112 | every level has a positive allotment (at most 10), a positive radius (at most 70), a non-negative wind ceiling and a positive threshold, and is moving exactly when it has an amplitude and a speed |
| Catalog.DifficultyIncreases | game.js:48-112 | a later level has a higher threshold, a smaller target, a wind ceiling at least as high and no more arrows |
| Scoring.RingIndex | game.js:421-424 | the clamped ring index always lies in [0, 4] |
| Scoring.RingScore | game.js:415-428 | the score of a hit is always one of 50, 30, 20, 10, 5 |
| Scoring.RingIndexBands | game.js:421-424 | ring k is chosen exactly when the distance lies in its band: below radius/5 for ring 0, in [k·radius/5, (k+1)·radius/5) for rings 1 to 3, and from 4·radius/5 on for ring 4 |
| Scoring.CentreScoresFifty | game.js:415-428 | a hit at distance 0 scores 50 |
| Scoring.ScoreNonIncreasing | game.js:415-428 | a hit further from the centre never scores more |
| Scoring.TrainingTargetExamples | game.js:415-428 | on the radius-70 target: 0 scores 50, 69 scores 5, 27.999 falls in ring 1 and 28 scores 20 |
| Shot.PowerFraction | game.js:279-280 | the power fraction lies in [0, 1]; within the first 2000 ms it is the held time over 2000, it is 1 from there on and 0 for no hold |
| Shot.LaunchSpeed | game.js:394 | for a power in [0, 1] the speed lies between 40% and 100% of the base speed 18, with the extremes at powers 0 and 1 |
| Shot.LongerHoldNotWeaker | game.js:276-283 | holding longer never gives less power or a slower arrow |
| Shot.PowerSaturates | game.js:27 | any hold of 2000 ms or more launches at full speed |
| Wind.WindDue | game.js:433 | the wind is due for a re-roll only once strictly more than 4000 ms have passed: never at exactly the interval, and never unless the clock has moved forward |
| Wind.WindDraw | game.js:436 | a level without wind always draws zero wind |
| Wind.WindDrawBounded | game.js:430-437 | a draw in [0, 1) gives a wind within the level's ceiling in both directions |
| Wind.WindRand | game.js:436 | each wind has a draw that produces it (the inverse of the draw) |
| Wind.WindRangeExact | game.js:436 | for a positive ceiling, the draw lies in [0, 1) exactly when the wind lies in [-ceiling, ceiling) |
| Settling.NewArrow | game.js:118-126 | a newly fired arrow keeps its launch speed, is in flight and unscored, and so satisfies the score invariant |
| Settling.Hits | game.js:406-413 | without a target nothing hits; with one, a distance equal to the radius hits and one beyond it does not |
| Settling.Step | game.js:128-159 | a settled arrow is unchanged; an arrow in flight settles exactly on a hit or on leaving the field; its score changes only on a hit, to the ring score; the launch speed never changes; a well-formed score stays well-formed |
| Settling.FlyConcat | game.js:128-159 | updating over two runs of frames is updating over their concatenation |
| Settling.SettledStaysSettled | game.js:129 | once settled, an arrow stays settled and keeps its score over any number of frames |
| Settling.CreditedAtMostOnce | game.js:147-151 | after the frame in which an arrow settles, no later frame changes its score, so it is credited at most once |
| Settling.FlightKeepsScoreWellFormed | game.js:128-159 | over any frames an arrow's score stays zero or a ring score, and an arrow in flight has none |
| Settling.MissesNeverScore | game.js:154-157 | an arrow whose frames never hit the target keeps its score (0 for a fresh arrow), even after leaving the field |
| Settling.HitEdge | game.js:406-413 | a distance equal to the radius is a hit and one just beyond it is not |
| Tally.HitCount | game.js:151 | the number of scoring arrows lies between 0 and the number of arrows |
| Tally.ScoreSumNonNegative | game.js:150 | arrows with well-formed scores sum to a non-negative total |
| Tally.TallyAppend | game.js:398 | appending an arrow adds its score and, if it scored, one hit |
| Tally.TallyUpdate | game.js:147-151 | replacing one arrow changes the totals by the difference of the two arrows' scores and hits |
| Game.Target.constructor | game.js:200-206 | a new target belongs to its level, with that level's distance and radius and a zero clock |
| Game.Target.Update | game.js:208-210 | the target's clock advances by exactly the given step |
| Game.Session.TargetRadius | game.js:406-413 | a radius is available exactly when a target exists |
| Game.Session.AllStuck | game.js:522 | when every live arrow has settled, no later frame can change any of them, whatever it observes |
| Game.Session.constructor | game.js:33-46 | the initial session: every counter zero, no arrows, no target, not playing, and the invariant holds |
| Game.Session.ResetGame | game.js:315-325 | level, score, arrows left, shots and hits become zero, the arrows are emptied and play stops, keeping the invariant |
| Game.Session.ScoresNonNegative | game.js:150 | the live arrows' scores sum to a non-negative total |
| Game.Session.StartLevel | game.js:327-342 | past the last level nothing changes; otherwise a fresh target of the current level, that level's full allotment with no arrows, playing, not charging, zero wind, the wind clock at now and the target clock at 0 |
| Game.Session.ClearArrows | game.js:332-334 | the new allotment with no live arrows, keeping the invariant (the old arrows' credit is kept in the ghost tally) |
| Game.Session.Arm | game.js:335-339 | play begins against the new target, not charging, with zero wind and the wind clock at now |
| Game.Session.Start | game.js:300-304 | while playing, or past the last level, nothing changes; otherwise the current level starts afresh: a new target of that level with its clock at 0, the full allotment with no arrows, playing, not charging, zero wind and the wind clock at now |
| Game.Session.Continue | game.js:306-312 | the current level starts afresh only if one is left and play has stopped (new target with its clock at 0, full allotment, no arrows, playing, not charging, zero wind, wind clock at now); after the last level nothing ever restarts |
| Game.Session.AdvanceLevel | game.js:344-355 | the level index goes up by one and play stops |
| Game.Session.FailLevel | game.js:357-363 | play stops with the level index unchanged |
| Game.Session.CheckLevelEnd | game.js:518-531 | nothing happens unless playing with no arrows left and every arrow settled; then play stops and the level index goes up by one exactly when the cumulative score reaches the threshold, and stays the same exactly when it does not |
| Game.Session.StartCharge | game.js:268-274 | a charge starts at now only when playing with arrows left and not already charging; otherwise nothing changes |
| Game.Session.ShootArrow | game.js:388-404 | with no arrow left nothing changes; otherwise exactly one fresh arrow at the power's speed is appended, arrows left goes down by one and shots fired up by one, so fired plus unfired arrows stay the allotment |
| Game.Session.ReleaseShot | game.js:276-283 | without a charge nothing changes; when not playing only the charge is cleared and no arrow appears; otherwise the charge is cleared and one arrow is fired at the clamped power of the hold |
| Game.Session.UpdateWind | game.js:430-440 | the wind and its clock change only when more than 4000 ms have passed, and then to the draw for the level's ceiling; the new wind never exceeds the ceiling |
| Game.Session.UpdateArrow | game.js:128-159 | the arrow takes one step; the total score grows by exactly the score it is credited and the hits by one exactly when it newly scores; the invariant (hits <= shots, score = credited sum) is kept |
| Game.Session.UpdateArrows | game.js:541 | every arrow, in firing order, takes the step of its own observation; the score grows by exactly the arrows' new credit and neither score nor hits decrease |
| Game.Session.Tick | game.js:533-547 | one frame: nothing happens unless playing; otherwise the wind is redrawn within the ceiling exactly when the interval has passed (and kept otherwise), the target clock advances by 16, and each arrow takes its step; arrows left and shots fired are unchanged, score and hits never decrease, and the level-end decision is applied to the updated state |
| Game.Session.Accuracy | game.js:375-378 | accuracy lies in [0, 100] and is 0 before the first shot |
| Game.AccuracyPercent | game.js:375-377 | zero shots give 0 instead of a division by zero; otherwise hits per shot times 100, within [0, 100] when hits do not exceed shots |
| Game.SessionBounds | game.js:33-46 | in every reachable session hits never exceed shots fired, the score is not negative, and while playing 0 <= arrows left <= allotment with fired plus unfired arrows equal to the allotment |
| Scenario.BullseyeSum | game.js:147-151 | arrows that all settled in the centre ring total 50 points each, each one a hit |
| Scenario.Shoot | game.js:268-283 | a press and release two seconds later fire exactly one more arrow |
| Scenario.Settle | game.js:533-547 | a frame in which the newest arrow lands in the centre credits it 50 and ends the level after the tenth |
| Scenario.PerfectFirstLevel | game.js:48-57 | from a fresh session, ten shots into the centre of the first level give a score of 500 with 10 hits in 10 shots; that passes the threshold of 80, so play stops with the second level next |

## Left out

- Drawing, the HUD, overlays and their text, and the `toFixed` formatting of accuracy and wind are presentation only.
- Event listeners, `requestAnimationFrame` and the loop wiring are browser I/O. `Session.Tick` keeps only the order of one frame.
- Arrow physics is floating point and uses `atan2`, `cos`, `sin` and `sqrt`. This covers velocity and position integration, gravity, the wind's push, the aim angle, the penetration nudge and `checkArrowHitTarget`. Each frame's outcome is an input (`Flight`).
- `Target.position` and the target's vertical base are left out: the sinusoidal motion only moves the point the distances are measured from. Only the target's clock is kept.
- `updateBow` and the mouse aim are left out. An arrow keeps only its launch speed, not its direction.
- `performance.now()` and `Math.random()` are parameters (`now`, `rand`).
- Arrows are records in the session's sequence, not objects. `Arrow.update` replaces the element in place (`Session.UpdateArrow`). No arrow is shared outside the session, so no aliasing is lost.
- Game.Session.StartLevel: takes no level index. Every call in the source passes the current `levelIndex`.
- Game.Session.UpdateWind: requires a level in range and a draw in [0, 1). The source reads the level table at `levelIndex`, and only `mainLoop` calls it, while playing.
- Game.Session.Tick: takes one observation per live arrow and requires a draw in [0, 1).
- Arithmetic is over exact reals, not IEEE doubles (`RingIndex`, `PowerFraction`, `WindDraw`, `WindDue`, the elapsed hold time in `ReleaseShot`, `AccuracyPercent`). On the targets whose ring width `radius / 5` is not exactly representable as a double (radii 56, 52 and 48), a distance at a ring boundary can fall in a different ring than in the source. For example, on the radius-56 target, the double nearest 11.2 divided by the double ring width gives exactly 1 (ring 1, 30 points), while the exact quotient floors to 0 (ring 0, 50 points).
- The fallbacks `cfg.windMax || 0` (game.js:434), `moveAmplitude || 50` and `moveSpeed || 1` (game.js:216-217) never apply: every level sets its wind ceiling, and every moving level sets its amplitude and speed. The last two sit in `Target.position`, which is not modelled.
- `resetGame` does not clear the wind, the target or a charge in progress. The model keeps that, so a charge held across a reset is dropped by the next release, because play has stopped.

=== FILE: catalog.dfy ===
/** The static table of six levels (game.js:48-112). */
module Catalog {
  import opened Options

  /**
   * One level. `moveAmplitude` and `moveSpeed` are absent from the levels that do not move,
   * as in the source's object literals.
   */
  datatype LevelConfig = LevelConfig(
    name: string,
    arrows: int,
    targetDistance: real,
    targetRadius: real,
    minScoreToAdvance: int,
    moving: bool,
    moveAmplitude: Option<real>,
    moveSpeed: Option<real>,
    windMax: real)

  const Levels: seq<LevelConfig> := [
    LevelConfig("Training Grounds", 10, 520.0, 70.0, 80, false, None, None, 0.0),
    LevelConfig("Light Breeze", 10, 560.0, 65.0, 140, false, None, None, 1.2),
    LevelConfig("Shifting Gusts", 10, 600.0, 60.0, 220, true, Some(40.0), Some(1.2), 2.5),
    LevelConfig("Mountain Draft", 9, 640.0, 56.0, 310, true, Some(70.0), Some(1.5), 3.4),
    LevelConfig("Storm Front", 9, 680.0, 52.0, 420, true, Some(95.0), Some(1.8), 4.2),
    LevelConfig("Final Trial", 8, 720.0, 48.0, 560, true, Some(120.0), Some(2.3), 5.0)
  ]

  /** What every entry of the table satisfies: a positive allotment and radius, a wind ceiling
      that is not negative, and motion parameters exactly on the moving levels. */
  predicate WellFormed(c: LevelConfig)
  {
    c.arrows > 0 && c.targetRadius > 0.0 && c.windMax >= 0.0 && c.minScoreToAdvance > 0 &&
    (c.moving <==> c.moveAmplitude.Some?) && (c.moving <==> c.moveSpeed.Some?)
  }

  /** `levels[index]` for an index inside the table. */
  function Level(index: int): (c: LevelConfig)
    requires 0 <= index < |Levels|
    ensures WellFormed(c)
    ensures c.arrows <= 10 && c.targetRadius <= 70.0
  {
    Levels[index]
  }

  /** Later levels are harder: a higher threshold, a smaller target, a wind ceiling no lower, no more arrows. */
  lemma DifficultyIncreases(i: int, j: int)
    requires 0 <= i < j < |Levels|
    ensures Level(i).minScoreToAdvance < Level(j).minScoreToAdvance
    ensures Level(j).targetRadius < Level(i).targetRadius
    ensures Level(i).windMax <= Level(j).windMax
    ensures Level(j).arrows <= Level(i).arrows
  {
  }
}

=== FILE: game.dfy ===
/**
 * The game session of game.js: the `gameState` object (lines 33-46) as a class whose methods
 * are the source's commands. The live target is an object; the live arrows are records held in
 * the session's sequence, which `Arrow.update` rewrites one element at a time.
 */
module Game {
  import opened Options
  import opened Numbers
  import opened Catalog
  import opened Scoring
  import opened Shot
  import opened Wind
  import opened Tally
  import opened Settling

  /** The per-frame target time step (`target.update(16)` in `mainLoop`). */
  const TargetTimeStep: real := 16.0

  /** The target of one level attempt (game.js:199-210); its drawn position is not modelled. */
  class Target {
    const cfg: LevelConfig
    const baseX: real := cfg.targetDistance
    const radius: real := cfg.targetRadius
    var time: real

    constructor (cfg: LevelConfig)
      ensures this.cfg == cfg && time == 0.0
    {
      this.cfg := cfg;
      time := 0.0;
    }

    /** `update(dt)`: the target's motion clock only ever advances by the caller's step. */
    method Update(dt: real)
      modifies this
      ensures time == old(time) + dt
    {
      time := time + dt;
    }
  }

  /** `gameState` (game.js:33-46) with the commands that change it. */
  class Session {
    var levelIndex: int
    var arrowsLeft: int
    var totalScore: int
    var shotsFired: int
    var hits: int
    var wind: real
    var lastWindChange: real
    var isCharging: bool
    var chargeStartTime: real
    var playing: bool
    var arrows: seq<Arrow>
    var target: Target?

    /** The allotment of the level attempt the live arrows belong to (0 before any start). */
    ghost var allotment: int
    /** The score and hits credited by arrows of earlier level attempts of this run. */
    ghost var bankedScore: int
    ghost var bankedHits: int

    ghost predicate Valid()
      reads this
    {
      0 <= levelIndex <= |Levels| &&
      (playing ==> levelIndex < |Levels| && target != null) &&
      (playing ==> allotment == Levels[levelIndex].arrows) &&
      (playing ==> Abs(wind) <= Levels[levelIndex].windMax) &&
      (target != null ==> target.radius > 0.0) &&
      // arrows.length + arrowsLeft is the allotment of the attempt
      0 <= arrowsLeft && arrowsLeft + |arrows| == allotment &&
      (forall i :: 0 <= i < |arrows| ==> WellScored(arrows[i])) &&
      // the score and the hits are exactly what the arrows of this run were credited
      0 <= bankedScore && totalScore == bankedScore + ScoreSum(arrows) &&
      0 <= bankedHits <= shotsFired - |arrows| && hits == bankedHits + HitCount(arrows)
    }

    /** The radius the collision test uses, or none before the first level starts. */
    function TargetRadius(): (r: Option<real>)
      reads this
      ensures r.Some? <==> target != null
    {
      if target == null then None else Some(target.radius)
    }

    /**
     * `arrows.every(a => a.stuck)`. When it holds the field is frozen: no later frame changes
     * any arrow, whatever it observes, so the level-end decision cannot be undone by one.
     */
    function AllStuck(): (b: bool)
      reads this
      ensures b && (target != null ==> target.radius > 0.0) ==>
        forall i, f :: 0 <= i < |arrows| ==> Step(arrows[i], f, TargetRadius()) == arrows[i]
    {
      forall i :: 0 <= i < |arrows| ==> arrows[i].stuck
    }

    /** The object literal of game.js:33-46. */
    constructor ()
      ensures Valid()
      ensures levelIndex == 0 && arrowsLeft == 0 && totalScore == 0 && shotsFired == 0 && hits == 0
      ensures wind == 0.0 && lastWindChange == 0.0 && !isCharging && chargeStartTime == 0.0
      ensures !playing && arrows == [] && target == null
    {
      levelIndex, arrowsLeft, totalScore, shotsFired, hits := 0, 0, 0, 0, 0;
      wind, lastWindChange, isCharging, chargeStartTime := 0.0, 0.0, false, 0.0;
      playing, arrows, target := false, [], null;
      allotment, bankedScore, bankedHits := 0, 0, 0;
    }

    /** `resetGame` (game.js:315-325): back to the first level with every counter at zero. */
    method ResetGame()
      requires Valid()
      modifies this`levelIndex, this`totalScore, this`arrowsLeft, this`arrows, this`playing
      modifies this`shotsFired, this`hits, this`allotment, this`bankedScore, this`bankedHits
      ensures Valid()
      ensures levelIndex == 0 && totalScore == 0 && arrowsLeft == 0 && arrows == [] && !playing
      ensures shotsFired == 0 && hits == 0
    {
      levelIndex := 0;
      totalScore := 0;
      arrowsLeft := 0;
      arrows := [];
      playing := false;
      shotsFired := 0;
      hits := 0;
      allotment, bankedScore, bankedHits := 0, 0, 0;
    }

    /** Every live arrow's score, and so the sum of them, is not negative. */
    lemma ScoresNonNegative()
      requires Valid()
      ensures ScoreSum(arrows) >= 0
    {
      ScoreSumNonNegative(arrows);
    }

    /**
     * `startLevel(gameState.levelIndex)` (game.js:327-342): past the last level nothing changes
     * (only the closing overlay is shown); otherwise a fresh attempt at the level begins.
     */
    method StartLevel(now: real)
      requires Valid()
      modifies this`arrowsLeft, this`arrows, this`target, this`playing, this`isCharging
      modifies this`wind, this`lastWindChange, this`allotment, this`bankedScore, this`bankedHits
      ensures Valid()
      ensures old(levelIndex) >= |Levels| ==> unchanged(this)
      ensures old(levelIndex) < |Levels| ==>
        playing && !isCharging && arrowsLeft == Levels[levelIndex].arrows && arrows == [] &&
        wind == 0.0 && lastWindChange == now &&
        target != null && fresh(target) && target.cfg == Levels[levelIndex] &&
        target.time == 0.0
    {
      if levelIndex >= |Levels| {
        return;
      }
      var cfg := Level(levelIndex);
      var t := new Target(cfg);
      ClearArrows(cfg.arrows);
      Arm(t, now);
    }

    /** The attempt's new allotment, with the previous attempt's arrows banked in the ghost tally. */
    method ClearArrows(n: int)
      requires Valid() && levelIndex < |Levels| && n == Levels[levelIndex].arrows
      modifies this`arrowsLeft, this`arrows, this`allotment, this`bankedScore, this`bankedHits
      ensures Valid()
      ensures arrowsLeft == n && arrows == []
    {
      ScoresNonNegative();
      bankedScore := bankedScore + ScoreSum(arrows);
      bankedHits := bankedHits + HitCount(arrows);
      arrowsLeft := n;
      arrows := [];
      allotment := n;
    }

    /** Play begins against target `t`, uncharged and without wind. */
    method Arm(t: Target, now: real)
      requires Valid() && levelIndex < |Levels| && allotment == Levels[levelIndex].arrows
      requires t.radius > 0.0
      modifies this`target, this`playing, this`isCharging, this`wind, this`lastWindChange
      ensures Valid()
      ensures playing && !isCharging && wind == 0.0 && lastWindChange == now && target == t
    {
      target := t;
      playing := true;
      isCharging := false;
      wind := 0.0;
      lastWindChange := now;
    }

    /** The Start button (game.js:300-304): start the current level unless already playing. */
    method Start(now: real)
      requires Valid()
      modifies this`arrowsLeft, this`arrows, this`target, this`playing, this`isCharging
      modifies this`wind, this`lastWindChange, this`allotment, this`bankedScore, this`bankedHits
      ensures Valid()
      ensures old(playing) || old(levelIndex) >= |Levels| ==> unchanged(this)
      ensures !old(playing) && old(levelIndex) < |Levels| ==>
        playing && !isCharging && arrowsLeft == Levels[levelIndex].arrows && arrows == [] &&
        target != null && fresh(target) && target.cfg == Levels[levelIndex] &&
        wind == 0.0 && lastWindChange == now && target.time == 0.0
    {
      if !playing {
        StartLevel(now);
      }
    }

    /**
     * The Continue button (game.js:306-312): start the current level (the next one after a pass,
     * the same one after a failure) if one is left and play has stopped.
     */
    method Continue(now: real)
      requires Valid()
      modifies this`arrowsLeft, this`arrows, this`target, this`playing, this`isCharging
      modifies this`wind, this`lastWindChange, this`allotment, this`bankedScore, this`bankedHits
      ensures Valid()
      ensures old(playing) || old(levelIndex) >= |Levels| ==> unchanged(this)
      ensures !old(playing) && old(levelIndex) < |Levels| ==>
        playing && !isCharging && arrowsLeft == Levels[levelIndex].arrows && arrows == [] &&
        target != null && fresh(target) && target.cfg == Levels[levelIndex] &&
        wind == 0.0 && lastWindChange == now && target.time == 0.0
    {
      if levelIndex < |Levels| && !playing {
        StartLevel(now);
      }
    }

    /** `advanceLevel` (game.js:344-355): move to the next level and stop play. */
    method AdvanceLevel()
      requires Valid() && levelIndex < |Levels|
      modifies this`levelIndex, this`playing
      ensures Valid()
      ensures levelIndex == old(levelIndex) + 1 && !playing
    {
      levelIndex := levelIndex + 1;
      playing := false;
    }

    /** `failLevel` (game.js:357-363): stop play and keep the level for a retry. */
    method FailLevel()
      requires Valid()
      modifies this`playing
      ensures Valid()
      ensures !playing
    {
      playing := false;
    }

    /**
     * `checkLevelEnd` (game.js:518-531): once every arrow of the level is fired and settled,
     * pass the level if the run's score reaches its threshold and fail it otherwise.
     */
    method CheckLevelEnd()
      requires Valid()
      modifies this`levelIndex, this`playing
      ensures Valid()
      ensures !(old(playing) && arrowsLeft <= 0 && AllStuck()) ==>
        levelIndex == old(levelIndex) && playing == old(playing)
      ensures old(playing) && arrowsLeft <= 0 && AllStuck() ==>
        !playing && old(levelIndex) < |Levels| &&
        (levelIndex == old(levelIndex) + 1 <==> totalScore >= Levels[old(levelIndex)].minScoreToAdvance) &&
        (levelIndex == old(levelIndex) <==> totalScore < Levels[old(levelIndex)].minScoreToAdvance)
    {
      if !playing {
        return;
      }
      if arrowsLeft > 0 {
        return;
      }
      var allStopped := AllStuck();
      if !allStopped {
        return;
      }
      var cfg := Level(levelIndex);
      if totalScore >= cfg.minScoreToAdvance {
        AdvanceLevel();
      } else {
        FailLevel();
      }
    }

    /** `startCharge` (game.js:268-274), with `performance.now()` passed in as `now`. */
    method StartCharge(now: real)
      requires Valid()
      modifies this`isCharging, this`chargeStartTime
      ensures Valid()
      ensures playing && arrowsLeft > 0 && !old(isCharging) ==> isCharging && chargeStartTime == now
      ensures !(playing && arrowsLeft > 0 && !old(isCharging)) ==>
        isCharging == old(isCharging) && chargeStartTime == old(chargeStartTime)
    {
      if !playing {
        return;
      }
      if arrowsLeft <= 0 {
        return;
      }
      if isCharging {
        return;
      }
      isCharging := true;
      chargeStartTime := now;
    }

    /**
     * `shootArrow` (game.js:388-404): with an arrow left, fire one at the speed the power gives;
     * otherwise do nothing.
     */
    method ShootArrow(power: real)
      requires Valid()
      modifies this`arrows, this`arrowsLeft, this`shotsFired
      ensures Valid()
      ensures old(arrowsLeft) <= 0 ==>
        arrows == old(arrows) && arrowsLeft == old(arrowsLeft) && shotsFired == old(shotsFired)
      ensures old(arrowsLeft) > 0 ==>
        arrows == old(arrows) + [NewArrow(LaunchSpeed(power))] &&
        arrowsLeft == old(arrowsLeft) - 1 && shotsFired == old(shotsFired) + 1
      ensures |arrows| + arrowsLeft == old(|arrows| + arrowsLeft)
    {
      if arrowsLeft <= 0 {
        return;
      }
      var speed := LaunchSpeed(power);
      var arrow := NewArrow(speed);
      TallyAppend(arrows, arrow);
      arrows := arrows + [arrow];
      arrowsLeft := arrowsLeft - 1;
      shotsFired := shotsFired + 1;
    }

    /**
     * `releaseShot` (game.js:276-283), with `performance.now()` passed in as `now`: without a
     * charge nothing happens; once play has stopped the charge is dropped with no arrow;
     * otherwise the held time sets the power of the shot.
     */
    method ReleaseShot(now: real)
      requires Valid()
      modifies this`isCharging, this`arrows, this`arrowsLeft, this`shotsFired
      ensures Valid()
      ensures !old(isCharging) ==> unchanged(this)
      ensures old(isCharging) ==> !isCharging
      ensures !(old(isCharging) && playing && old(arrowsLeft) > 0) ==>
        arrows == old(arrows) && arrowsLeft == old(arrowsLeft) && shotsFired == old(shotsFired)
      ensures old(isCharging) && playing && old(arrowsLeft) > 0 ==>
        arrows == old(arrows) + [NewArrow(LaunchSpeed(PowerFraction(now - chargeStartTime)))] &&
        arrowsLeft == old(arrowsLeft) - 1 && shotsFired == old(shotsFired) + 1
    {
      if !isCharging {
        return;
      }
      if !playing {
        isCharging := false;
        return;
      }
      var elapsed := now - chargeStartTime;
      var powerPct := PowerFraction(elapsed);
      ShootArrow(powerPct);
      isCharging := false;
    }

    /**
     * `updateWind` (game.js:430-440), with `performance.now()` as `now` and `Math.random()` as
     * `rand`: once the interval has passed, a new wind within the level's ceiling.
     */
    method UpdateWind(now: real, rand: real)
      requires Valid() && levelIndex < |Levels| && 0.0 <= rand < 1.0
      modifies this`wind, this`lastWindChange
      ensures Valid()
      ensures WindDue(now, old(lastWindChange)) ==>
        wind == WindDraw(rand, Levels[levelIndex].windMax) && lastWindChange == now
      ensures !WindDue(now, old(lastWindChange)) ==>
        wind == old(wind) && lastWindChange == old(lastWindChange)
      ensures WindDue(now, old(lastWindChange)) ==> Abs(wind) <= Levels[levelIndex].windMax
    {
      var cfg := Level(levelIndex);
      if now - lastWindChange > WindChangeInterval {
        var max := cfg.windMax;
        WindDrawBounded(rand, max);
        wind := WindDraw(rand, max);
        lastWindChange := now;
      }
    }

    /**
     * `Arrow.update` (game.js:128-159) on the arrow at index `k`: a settled arrow is left alone;
     * a hit settles it and credits the session with the ring score; leaving the field settles
     * it without a score.
     */
    method UpdateArrow(k: int, f: Flight)
      requires Valid() && 0 <= k < |arrows|
      modifies this`arrows, this`totalScore, this`hits
      ensures Valid()
      ensures arrows == old(arrows)[k := Step(old(arrows[k]), f, TargetRadius())]
      ensures totalScore == old(totalScore) + arrows[k].hitScore - old(arrows[k].hitScore)
      ensures hits == old(hits) + (if old(arrows[k].hitScore) == 0 && arrows[k].hitScore > 0 then 1 else 0)
    {
      var a := arrows[k];
      if a.stuck {
        return;
      }
      if target != null && f.hitDist <= target.radius {
        var ringScore := RingScore(f.scoreDist, target.radius);
        a := a.(stuck := true, hitScore := ringScore);
        totalScore := totalScore + ringScore;
        hits := hits + (if ringScore > 0 then 1 else 0);
      }
      if f.outOfBounds {
        a := a.(stuck := true);
      }
      TallyUpdate(arrows, k, a);
      arrows := arrows[k := a];
    }

    /**
     * The `forEach` over the arrows in `mainLoop` (game.js:541): each arrow, in firing order,
     * takes the step its own flight observation gives.
     */
    method UpdateArrows(flights: seq<Flight>)
      requires Valid() && |flights| == |arrows|
      modifies this`arrows, this`totalScore, this`hits
      ensures Valid()
      ensures |arrows| == |old(arrows)|
      ensures forall i :: 0 <= i < |arrows| ==> arrows[i] == Step(old(arrows[i]), flights[i], TargetRadius())
      ensures totalScore - old(totalScore) == ScoreSum(arrows) - old(ScoreSum(arrows))
      ensures totalScore >= old(totalScore) && hits >= old(hits)
    {
      var i := 0;
      while i < |arrows|
        invariant 0 <= i <= |arrows| == |old(arrows)|
        invariant Valid()
        invariant forall j :: 0 <= j < i ==> arrows[j] == Step(old(arrows[j]), flights[j], TargetRadius())
        invariant forall j :: i <= j < |arrows| ==> arrows[j] == old(arrows[j])
        invariant totalScore - old(totalScore) == ScoreSum(arrows) - old(ScoreSum(arrows))
        invariant totalScore >= old(totalScore) && hits >= old(hits)
      {
        UpdateArrow(i, flights[i]);
        i := i + 1;
      }
    }

    /**
     * One frame of `mainLoop` (game.js:533-547) without the drawing: while playing, wind, then
     * target clock, then every arrow; then the level-end check on the updated state.
     */
    method Tick(now: real, rand: real, flights: seq<Flight>)
      requires Valid() && 0.0 <= rand < 1.0 && |flights| == |arrows|
      modifies this`wind, this`lastWindChange, this`arrows, this`totalScore, this`hits
      modifies this`levelIndex, this`playing, target
      ensures Valid()
      ensures arrowsLeft == old(arrowsLeft) && shotsFired == old(shotsFired) && |arrows| == |old(arrows)|
      ensures totalScore >= old(totalScore) && hits >= old(hits)
      ensures !old(playing) ==> unchanged(this)
      // updateWind: a new draw only once the interval has passed
      ensures old(playing) && WindDue(now, old(lastWindChange)) ==>
        wind == WindDraw(rand, Levels[old(levelIndex)].windMax) && lastWindChange == now &&
        Abs(wind) <= Levels[old(levelIndex)].windMax
      ensures !(old(playing) && WindDue(now, old(lastWindChange))) ==>
        wind == old(wind) && lastWindChange == old(lastWindChange)
      // target.update(16)
      ensures target == old(target)
      ensures old(playing) ==> target != null && target.time == old(target.time) + TargetTimeStep
      ensures !old(playing) && target != null ==> unchanged(target)
      ensures old(playing) ==>
        forall i :: 0 <= i < |arrows| ==> arrows[i] == Step(old(arrows[i]), flights[i], TargetRadius())
      ensures !(old(playing) && arrowsLeft <= 0 && AllStuck()) ==>
        levelIndex == old(levelIndex) && playing == old(playing)
      ensures old(playing) && arrowsLeft <= 0 && AllStuck() ==>
        !playing && old(levelIndex) < |Levels| &&
        (levelIndex == old(levelIndex) + 1 <==> totalScore >= Levels[old(levelIndex)].minScoreToAdvance) &&
        (levelIndex == old(levelIndex) <==> totalScore < Levels[old(levelIndex)].minScoreToAdvance)
    {
      if playing {
        UpdateWind(now, rand);
        target.Update(TargetTimeStep);
        UpdateArrows(flights);
      }
      CheckLevelEnd();
    }

    /** The shot-count guard of `getAccuracyString` (game.js:375-378): hits per shot, in percent. */
    function Accuracy(): (r: real)
      reads this
      requires Valid()
      ensures 0.0 <= r <= 100.0
      ensures shotsFired == 0 ==> r == 0.0
    {
      SessionBounds(this);
      AccuracyPercent(hits, shotsFired)
    }
  }

  /** Hits per shot in percent; zero before the first shot instead of a division by zero. */
  function AccuracyPercent(hits: int, shots: int): (r: real)
    ensures shots == 0 ==> r == 0.0
    ensures 0 <= hits <= shots ==> 0.0 <= r <= 100.0
    ensures shots != 0 ==> r * shots as real == hits as real * 100.0
  {
    if shots == 0 then 0.0 else hits as real / shots as real * 100.0
  }

  /**
   * The bookkeeping invariants of a session: every hit is a shot, the run's score is not
   * negative, and while playing the fired and unfired arrows make up the level's allotment.
   */
  lemma SessionBounds(g: Session)
    requires g.Valid()
    ensures 0 <= g.hits <= g.shotsFired
    ensures 0 <= g.totalScore
    ensures g.playing ==>
      0 <= g.arrowsLeft <= Levels[g.levelIndex].arrows &&
      |g.arrows| + g.arrowsLeft == Levels[g.levelIndex].arrows
  {
    g.ScoresNonNegative();
  }
}

=== FILE: numbers.dfy ===
/** The numeric helpers of game.js: `clamp` (line 115) and the magnitude used to bound the wind. */
module Numbers {

  function Abs(x: real): real
  {
    if x < 0.0 then -x else x
  }

  /**
   * `clamp(v, min, max) = Math.max(min, Math.min(max, v))` on JavaScript numbers that are
   * not integers (the charge power fraction).
   */
  function ClampReal(v: real, lo: real, hi: real): (r: real)
    ensures lo <= r
    ensures lo <= hi ==> r <= hi
    ensures lo <= v <= hi ==> r == v
    ensures v < lo ==> r == lo
    ensures lo <= hi < v ==> r == hi
  {
    var m := if v < hi then v else hi;
    if m < lo then lo else m
  }

  /**
   * The one `clamp` of the source at a second type: JavaScript has a single number type, and
   * `scoreArrowHit` applies `clamp` to the integer that `Math.floor` returns.
   */
  function ClampInt(v: int, lo: int, hi: int): (r: int)
    ensures lo <= r
    ensures lo <= hi ==> r <= hi
    ensures lo <= v <= hi ==> r == v
    ensures v < lo ==> r == lo
    ensures lo <= hi < v ==> r == hi
  {
    var m := if v < hi then v else hi;
    if m < lo then lo else m
  }

  /** Clamping never reverses the order of two inputs. */
  lemma ClampIntMonotone(v1: int, v2: int, lo: int, hi: int)
    requires lo <= hi && v1 <= v2
    ensures ClampInt(v1, lo, hi) <= ClampInt(v2, lo, hi)
  {
  }

  lemma ClampRealMonotone(v1: real, v2: real, lo: real, hi: real)
    requires lo <= hi && v1 <= v2
    ensures ClampReal(v1, lo, hi) <= ClampReal(v2, lo, hi)
  {
  }

  /** Multiplying by a positive factor keeps the order of two reals, in both directions. */
  lemma ScaleOrder(a: real, b: real, t: real)
    requires t > 0.0
    ensures a <= b <==> a * t <= b * t
    ensures a < b <==> a * t < b * t
  {
  }
}

=== FILE: options.dfy ===
/** An optional value: used where the source has `undefined`, `null` or a missing field. */
module Options {
  datatype Option<T> = None | Some(value: T)
}

=== FILE: scenario.dfy ===
/** A whole first level played through the session's commands. */
module Scenario {
  import opened Catalog
  import opened Scoring
  import opened Settling
  import opened Tally
  import opened Game

  /** Arrows that all settled in the centre ring. */
  ghost predicate AllBullseyes(s: seq<Arrow>)
  {
    forall j :: 0 <= j < |s| ==> s[j].stuck && s[j].hitScore == 50
  }

  /** Arrows that all settled in the centre ring score fifty apiece. */
  lemma {:induction false} BullseyeSum(s: seq<Arrow>)
    requires AllBullseyes(s)
    ensures ScoreSum(s) == 50 * |s|
    ensures HitCount(s) == |s|
  {
    if s != [] {
      BullseyeSum(s[..|s| - 1]);
    }
  }

  /** The state after `i` perfect shots of the first level. */
  ghost predicate Progress(g: Session, i: int)
    reads g
  {
    0 <= i <= 10 &&
    g.Valid() && g.bankedScore == 0 && g.bankedHits == 0 &&
    g.target != null && g.target.radius == Levels[0].targetRadius &&
    |g.arrows| == i && g.arrowsLeft == 10 - i && g.shotsFired == i &&
    AllBullseyes(g.arrows) &&
    (i < 10 ==> g.playing && g.levelIndex == 0 && !g.isCharging) &&
    (i == 10 ==> g.levelIndex == 1 && !g.playing)
  }

  /** The state after the shot numbered `i` is fired and before it settles. */
  ghost predicate Fired(g: Session, i: int)
    reads g
  {
    0 <= i < 10 &&
    g.Valid() && g.bankedScore == 0 && g.bankedHits == 0 &&
    g.target != null && g.target.radius == Levels[0].targetRadius &&
    |g.arrows| == i + 1 && g.arrowsLeft == 9 - i && g.shotsFired == i + 1 &&
    AllBullseyes(g.arrows[..i]) && !g.arrows[i].stuck &&
    g.playing && g.levelIndex == 0 && !g.isCharging
  }

  /** A press and a release two seconds later: one full-power shot. */
  method Shoot(g: Session, ghost i: int)
    requires Progress(g, i) && i < 10
    modifies g
    ensures Fired(g, i) && g.target == old(g.target)
  {
    g.StartCharge(0.0);
    g.ReleaseShot(2000.0);
    assert g.arrows[..i] == old(g.arrows);
  }

  /** One frame in which the newest arrow lands in the centre of the target. */
  method Settle(g: Session, ghost i: int)
    requires Fired(g, i)
    modifies g, g.target
    ensures Progress(g, i + 1) && g.target == old(g.target)
  {
    CentreScoresFifty(g.target.radius);
    g.Tick(0.0, 0.0, seq(|g.arrows|, _ => Flight(0.0, 0.0, false)));
    BullseyeSum(g.arrows);
  }

  /**
   * The first level from a fresh session: ten shots, each settled in the centre ring on the
   * frame after it is fired, reach a score of 500, which passes the level's threshold of 80,
   * so play stops with the second level next.
   */
  method PerfectFirstLevel() returns (g: Session)
    ensures g.Valid()
    ensures g.levelIndex == 1 && !g.playing
    ensures g.totalScore == 500 && g.shotsFired == 10 && g.hits == 10
  {
    g := new Session();
    g.Start(0.0);
    var i := 0;
    while i < 10
      invariant Progress(g, i) && fresh(g) && fresh(g.target)
    {
      Shoot(g, i);
      Settle(g, i);
      i := i + 1;
    }
    BullseyeSum(g.arrows);
  }
}

=== FILE: scoring.dfy ===
/** Ring scoring: `scoreArrowHit` (game.js:415-428), given the impact distance. */
module Scoring {
  import opened Numbers

  const TargetRings: int := 5
  /** Points per ring, ring 0 being the centre. */
  const RingScores: seq<int> := [50, 30, 20, 10, 5]

  predicate IsRingScore(s: int)
  {
    s in RingScores
  }

  /** `clamp(Math.floor(dist / (radius / TARGET_RINGS)), 0, TARGET_RINGS - 1)` */
  function RingIndex(dist: real, radius: real): (k: int)
    requires radius > 0.0
    ensures 0 <= k < TargetRings
  {
    ClampInt((dist / (radius / TargetRings as real)).Floor, 0, TargetRings - 1)
  }

  /** `ringScores[ringIndex] || 0`: the table lookup with its defensive fallback. */
  function RingScore(dist: real, radius: real): (s: int)
    requires radius > 0.0
    ensures IsRingScore(s) && 5 <= s <= 50
  {
    var k := RingIndex(dist, radius);
    if 0 <= k < |RingScores| then RingScores[k] else 0
  }

  /**
   * The ring an impact at `dist` falls in, stated without `floor`: each ring is a band
   * `radius / TargetRings` wide; the innermost also takes every distance below its outer edge and
   * the outermost every distance from its inner edge on.
   */
  predicate InRing(dist: real, radius: real, k: int)
    requires radius > 0.0
  {
    var t := radius / TargetRings as real;
    if k == 0 then dist < t
    else if 1 <= k <= 3 then k as real * t <= dist < (k + 1) as real * t
    else k == 4 && 4.0 * t <= dist
  }

  lemma FloorBand(q: real, n: int)
    ensures q.Floor == n <==> n as real <= q < (n + 1) as real
  {
  }

  lemma ScaleBand(dist: real, t: real, n: int)
    requires t > 0.0
    ensures n as real <= dist / t <==> n as real * t <= dist
    ensures dist / t < (n + 1) as real <==> dist < (n + 1) as real * t
  {
    assert dist / t * t == dist;
    ScaleOrder(n as real, dist / t, t);
    ScaleOrder(dist / t, (n + 1) as real, t);
  }

  /** The ring index is exactly the band the distance falls in. */
  lemma RingIndexBands(dist: real, radius: real, k: int)
    requires radius > 0.0 && 0 <= k < TargetRings
    ensures RingIndex(dist, radius) == k <==> InRing(dist, radius, k)
  {
    var t := radius / 5.0;
    var f := (dist / t).Floor;
    FloorBand(dist / t, f);
    ScaleBand(dist, t, f);
    ScaleBand(dist, t, 1);
    ScaleBand(dist, t, 4);
    ScaleBand(dist, t, k);
    if 1 <= k <= 3 {
      FloorBand(dist / t, k);
    }
  }

  /** A hit at the very centre scores the top ring. */
  lemma CentreScoresFifty(radius: real)
    requires radius > 0.0
    ensures RingScore(0.0, radius) == 50
  {
  }

  /** Moving the impact outward never raises the score. */
  lemma ScoreNonIncreasing(d1: real, d2: real, radius: real)
    requires radius > 0.0 && d1 <= d2
    ensures RingScore(d1, radius) >= RingScore(d2, radius)
  {
    var t := radius / TargetRings as real;
    assert d1 / t <= d2 / t by {
      assert d1 / t * t == d1 && d2 / t * t == d2;
      ScaleOrder(d1 / t, d2 / t, t);
    }
    ClampIntMonotone((d1 / t).Floor, (d2 / t).Floor, 0, TargetRings - 1);
  }

  /** On the 70-unit target of the first level: the centre scores 50, distance 69 scores 5. */
  lemma TrainingTargetExamples()
    ensures RingScore(0.0, 70.0) == 50
    ensures RingIndex(69.0, 70.0) == 4 && RingScore(69.0, 70.0) == 5
    ensures RingIndex(27.999, 70.0) == 1 && RingScore(28.0, 70.0) == 20
  {
    assert (69.0 / (70.0 / 5.0)).Floor == 4 by {
      FloorBand(69.0 / 14.0, 4);
    }
    assert (27.999 / 14.0).Floor == 1 by {
      FloorBand(27.999 / 14.0, 1);
    }
    assert (28.0 / 14.0).Floor == 2;
  }
}

=== FILE: settling.dfy ===
/**
 * What one call of `Arrow.update` (game.js:128-159) does to an arrow's bookkeeping, with the
 * floating-point flight replaced by what it observes: the distance to the target centre at the
 * collision test, the distance after the arrow is pushed 10 units further in, and whether the
 * arrow has left the field.
 */
module Settling {
  import opened Options
  import opened Scoring

  /**
   * A fired arrow (game.js:117-126): the magnitude of its launch velocity `(vx, vy)`, whether
   * it has settled, and what it scored. Its position, velocity and heading are not modelled.
   */
  datatype Arrow = Arrow(launchSpeed: real, stuck: bool, hitScore: int)

  /**
   * One tick of flight as seen from outside: `hitDist` is the distance to the target centre
   * that `checkArrowHitTarget` measures; `scoreDist` the distance `scoreArrowHit` measures after
   * the penetration nudge; `outOfBounds` the field-bounds test of game.js:156.
   */
  datatype Flight = Flight(hitDist: real, scoreDist: real, outOfBounds: bool)

  /**
   * `new Arrow(x, y, vx, vy)` (game.js:117-126) for a launch of the given speed: in flight,
   * unscored, and so well-formed from the start.
   */
  function NewArrow(speed: real): (a: Arrow)
    ensures a.launchSpeed == speed && !a.stuck && a.hitScore == 0
    ensures WellScored(a)
  {
    Arrow(speed, false, 0)
  }

  /** `checkArrowHitTarget`: no target means no hit; otherwise within the radius, edge included. */
  predicate Hits(f: Flight, radius: Option<real>): (b: bool)
    ensures radius.None? ==> !b
    ensures radius.Some? && f.hitDist == radius.value ==> b
    ensures radius.Some? && f.hitDist > radius.value ==> !b
  {
    radius.Some? && f.hitDist <= radius.value
  }

  /** The bookkeeping of an arrow that every reachable arrow satisfies: only a settled arrow has
      a score, and a score is one of the ring scores. */
  predicate WellScored(a: Arrow)
  {
    (a.hitScore == 0 || IsRingScore(a.hitScore)) && (!a.stuck ==> a.hitScore == 0)
  }

  /** One `Arrow.update` call. */
  function Step(a: Arrow, f: Flight, radius: Option<real>): (b: Arrow)
    requires radius.Some? ==> radius.value > 0.0
    // a settled arrow is frozen
    ensures a.stuck ==> b == a
    ensures b.launchSpeed == a.launchSpeed
    // an arrow in flight settles exactly when it hits or leaves the field
    ensures !a.stuck ==> (b.stuck <==> Hits(f, radius) || f.outOfBounds)
    // the score changes only on a hit, and then to the ring score at the nudged distance
    ensures b.hitScore != a.hitScore ==> !a.stuck && Hits(f, radius) && b.hitScore == RingScore(f.scoreDist, radius.value)
    ensures !a.stuck && Hits(f, radius) ==> b.hitScore == RingScore(f.scoreDist, radius.value)
    ensures WellScored(a) ==> WellScored(b)
  {
    if a.stuck then a
    else
      var scored := if Hits(f, radius) then a.(stuck := true, hitScore := RingScore(f.scoreDist, radius.value)) else a;
      if f.outOfBounds then scored.(stuck := true) else scored
  }

  /** An arrow's life over successive ticks against one target. */
  function Fly(a: Arrow, fs: seq<Flight>, radius: Option<real>): Arrow
    requires radius.Some? ==> radius.value > 0.0
    decreases |fs|
  {
    if fs == [] then a else Fly(Step(a, fs[0], radius), fs[1..], radius)
  }

  lemma {:induction false} FlyConcat(a: Arrow, fs: seq<Flight>, gs: seq<Flight>, radius: Option<real>)
    requires radius.Some? ==> radius.value > 0.0
    ensures Fly(a, fs + gs, radius) == Fly(Fly(a, fs, radius), gs, radius)
    decreases |fs|
  {
    if fs != [] {
      assert (fs + gs)[1..] == fs[1..] + gs;
      FlyConcat(Step(a, fs[0], radius), fs[1..], gs, radius);
    } else {
      assert fs + gs == gs;
    }
  }

  /** Once settled, an arrow never moves or scores again, whatever later ticks observe. */
  lemma {:induction false} SettledStaysSettled(a: Arrow, fs: seq<Flight>, radius: Option<real>)
    requires radius.Some? ==> radius.value > 0.0
    requires a.stuck
    ensures Fly(a, fs, radius) == a
    decreases |fs|
  {
    if fs != [] {
      SettledStaysSettled(Step(a, fs[0], radius), fs[1..], radius);
    }
  }

  /**
   * Each arrow is credited at most once: after the tick at which it settles, the rest of its
   * life leaves its state, and so its score, as it was.
   */
  lemma CreditedAtMostOnce(a: Arrow, fs: seq<Flight>, i: int, radius: Option<real>)
    requires radius.Some? ==> radius.value > 0.0
    requires 0 <= i <= |fs| && Fly(a, fs[..i], radius).stuck
    ensures Fly(a, fs, radius) == Fly(a, fs[..i], radius)
  {
    assert fs == fs[..i] + fs[i..];
    FlyConcat(a, fs[..i], fs[i..], radius);
    SettledStaysSettled(Fly(a, fs[..i], radius), fs[i..], radius);
  }

  /** Whatever it meets, a fresh arrow ends with no score or one ring score, and only if settled. */
  lemma {:induction false} FlightKeepsScoreWellFormed(a: Arrow, fs: seq<Flight>, radius: Option<real>)
    requires radius.Some? ==> radius.value > 0.0
    requires WellScored(a)
    ensures WellScored(Fly(a, fs, radius))
    decreases |fs|
  {
    if fs != [] {
      FlightKeepsScoreWellFormed(Step(a, fs[0], radius), fs[1..], radius);
    }
  }

  /** An arrow that never comes within the target radius never scores. */
  lemma {:induction false} MissesNeverScore(a: Arrow, fs: seq<Flight>, radius: Option<real>)
    requires radius.Some? ==> radius.value > 0.0
    requires forall i :: 0 <= i < |fs| ==> !Hits(fs[i], radius)
    ensures Fly(a, fs, radius).hitScore == a.hitScore
    decreases |fs|
  {
    if fs != [] {
      MissesNeverScore(Step(a, fs[0], radius), fs[1..], radius);
    }
  }

  /** The collision test includes the edge: distance 70 from a radius-70 target is a hit, 70.5 is not. */
  lemma HitEdge()
    ensures Hits(Flight(70.0, 70.0, false), Some(70.0))
    ensures !Hits(Flight(70.5, 70.5, false), Some(70.0))
    ensures Step(NewArrow(18.0), Flight(70.5, 70.5, false), Some(70.0)) == NewArrow(18.0)
  {
  }
}

=== FILE: shot.dfy ===
/** Charge power and launch speed: `releaseShot` (game.js:276-283) and `shootArrow` (game.js:394). */
module Shot {
  import opened Numbers

  /** MAX_POWER_HOLD: milliseconds of holding for full power. */
  const MaxPowerHold: real := 2000.0
  /** BASE_ARROW_SPEED */
  const BaseArrowSpeed: real := 18.0

  /** `clamp(elapsed / MAX_POWER_HOLD, 0, 1)`: the share of full power a hold of `elapsed` ms gives. */
  function PowerFraction(elapsed: real): (p: real)
    ensures 0.0 <= p <= 1.0
    ensures 0.0 <= elapsed <= MaxPowerHold ==> p * MaxPowerHold == elapsed
    ensures elapsed >= MaxPowerHold ==> p == 1.0
    ensures elapsed <= 0.0 ==> p == 0.0
  {
    ClampReal(elapsed / MaxPowerHold, 0.0, 1.0)
  }

  /** `BASE_ARROW_SPEED * (0.4 + 0.6 * powerPct)` */
  function LaunchSpeed(power: real): (s: real)
    ensures 0.0 <= power <= 1.0 ==> 0.4 * BaseArrowSpeed <= s <= BaseArrowSpeed
    ensures power == 1.0 ==> s == BaseArrowSpeed
    ensures power == 0.0 ==> s == 0.4 * BaseArrowSpeed
  {
    BaseArrowSpeed * (0.4 + 0.6 * power)
  }

  /** Holding longer never gives a weaker shot. */
  lemma LongerHoldNotWeaker(e1: real, e2: real)
    requires e1 <= e2
    ensures PowerFraction(e1) <= PowerFraction(e2)
    ensures LaunchSpeed(PowerFraction(e1)) <= LaunchSpeed(PowerFraction(e2))
  {
    ClampRealMonotone(e1 / MaxPowerHold, e2 / MaxPowerHold, 0.0, 1.0);
  }

  /** Power saturates: any hold of at least MAX_POWER_HOLD launches at full speed. */
  lemma PowerSaturates(elapsed: real)
    requires elapsed >= MaxPowerHold
    ensures LaunchSpeed(PowerFraction(elapsed)) == LaunchSpeed(PowerFraction(MaxPowerHold)) == BaseArrowSpeed
  {
  }
}

=== FILE: tally.dfy ===
/** Sums and counts over a level attempt's arrows, used to state what the session credits. */
module Tally {
  import opened Settling

  /** The sum of the arrows' scores, added up from the last arrow. */
  function ScoreSum(s: seq<Arrow>): int
  {
    if s == [] then 0 else ScoreSum(s[..|s| - 1]) + s[|s| - 1].hitScore
  }

  /** How many arrows scored: the hits among them. */
  function HitCount(s: seq<Arrow>): (r: int)
    ensures 0 <= r <= |s|
  {
    if s == [] then 0 else HitCount(s[..|s| - 1]) + (if s[|s| - 1].hitScore > 0 then 1 else 0)
  }

  /** Arrows with well-formed scores add up to a total that is not negative. */
  lemma {:induction false} ScoreSumNonNegative(s: seq<Arrow>)
    requires forall i :: 0 <= i < |s| ==> WellScored(s[i])
    ensures ScoreSum(s) >= 0
  {
    if s != [] {
      ScoreSumNonNegative(s[..|s| - 1]);
    }
  }

  /** Firing one more arrow adds its score and, if it scored, one hit. */
  lemma {:induction false} TallyAppend(s: seq<Arrow>, a: Arrow)
    ensures ScoreSum(s + [a]) == ScoreSum(s) + a.hitScore
    ensures HitCount(s + [a]) == HitCount(s) + (if a.hitScore > 0 then 1 else 0)
  {
    assert (s + [a])[..|s|] == s;
  }

  /** Replacing one arrow changes the sum by the difference of scores, and the count by the
      change in whether it scored. */
  lemma {:induction false} TallyUpdate(s: seq<Arrow>, k: int, a: Arrow)
    requires 0 <= k < |s|
    ensures ScoreSum(s[k := a]) == ScoreSum(s) - s[k].hitScore + a.hitScore
    ensures HitCount(s[k := a]) == HitCount(s) - (if s[k].hitScore > 0 then 1 else 0) + (if a.hitScore > 0 then 1 else 0)
  {
    var n := |s| - 1;
    if k < n {
      assert s[k := a][..n] == s[..n][k := a];
      TallyUpdate(s[..n], k, a);
    } else {
      assert s[k := a][..n] == s[..n];
    }
  }
}

=== FILE: wind.dfy ===
/** The wind re-roll of `updateWind` (game.js:430-440), with the clock and the random draw as inputs. */
module Wind {
  import opened Numbers

  /** WIND_CHANGE_INTERVAL, in milliseconds. */
  const WindChangeInterval: real := 4000.0

  /** The wind is re-rolled only once strictly more than the interval has passed. */
  predicate WindDue(now: real, lastWindChange: real): (due: bool)
    ensures due ==> lastWindChange < now
    ensures now <= lastWindChange + WindChangeInterval ==> !due
  {
    now - lastWindChange > WindChangeInterval
  }

  /** `(Math.random() * 2 - 1) * max` for a draw `rand` of `Math.random()`. */
  function WindDraw(rand: real, windMax: real): (w: real)
    ensures windMax == 0.0 ==> w == 0.0
  {
    (rand * 2.0 - 1.0) * windMax
  }

  /** A draw in [0, 1) gives a wind no stronger than the ceiling. */
  lemma WindDrawBounded(rand: real, windMax: real)
    requires 0.0 <= rand < 1.0 && windMax >= 0.0
    ensures -windMax <= WindDraw(rand, windMax) <= windMax
    ensures Abs(WindDraw(rand, windMax)) <= windMax
  {
    var u := rand * 2.0 - 1.0;
    assert -1.0 <= u < 1.0;
    assert u * windMax <= windMax;
    assert -windMax <= u * windMax;
  }

  /** The draw that produces a given wind: the inverse of WindDraw for a non-zero ceiling. */
  function WindRand(w: real, windMax: real): (rand: real)
    requires windMax != 0.0
    ensures WindDraw(rand, windMax) == w
  {
    (w / windMax + 1.0) / 2.0
  }

  /**
   * For a positive ceiling the draws in [0, 1) give exactly the winds in [-windMax, windMax):
   * every such wind is reachable and no other.
   */
  lemma WindRangeExact(rand: real, windMax: real)
    requires windMax > 0.0
    ensures 0.0 <= rand < 1.0 <==> -windMax <= WindDraw(rand, windMax) < windMax
  {
    var u := rand * 2.0 - 1.0;
    assert WindDraw(rand, windMax) == u * windMax;
    assert 0.0 <= rand <==> -1.0 <= u;
    assert rand < 1.0 <==> u < 1.0;
    ScaleOrder(-1.0, u, windMax);
    ScaleOrder(u, 1.0, windMax);
  }
}
